=== FILE: README.md ===
# Live price dashboard: streaming-data core in Dafny

This project models the bookkeeping on both ends of a live Bitcoin-price
dashboard. A Go server (`backend/main.go`) simulates a price, keeps a
200-point history in its broadcast hub, and pushes each point over a
WebSocket. It also offers a `/reset` endpoint. A React client
(`frontend/src/App.js` and two panel components) keeps the session state:
the connection status, a message counter, and two parallel 200-point series
of prices and time labels. It derives min/max/mean and the change since the
oldest retained point, and it runs a reset protocol against the server.

Modules, one per component:

- `Series` (series.dfy): "append, then keep the newest `cap`". The client's `slice(-200)` and the hub's `history[len-max:]` are both this operation. FIFO retention is proved once here.
- `Endpoint` (endpoint.dfy): `includes`, first-occurrence `replace`, and the feed and reset URLs derived from the host name.
- `Session` (session.dfy): the client state as an immutable record. Socket callbacks, the reconnect click and the settled reset request are events, applied one at a time in delivery order.
- `ChartStats` (chart_stats.dfy): `calculateStats` and the chart/placeholder choice.
- `StatsPanel` (stats_panel.dfy): `calculateChange`, `isPositive`, the falsy branch of `formatPrice`, and the header buttons.
- `Backend` (backend.dfy): the hub's clients and history, one `getBitcoinPrice` step, the generator loop, and `handleReset`.
- `EndToEnd` (end_to_end.dfy): the reset round trip between the two sides, and what the server's price clamp implies for the client's figures.

Prices are exact `real`s. Randomness, elapsed time and its square root are
parameters of a price step (`Backend.Draw`). A socket event carries the
reconnect-trigger value of the effect run that created its socket, but the
client's transition ignores it, as the source does (see Findings).

Four behaviours of the code that are easy to miss; the model follows the code:

- A JSON `null` frame gets past `JSON.parse`. It bumps the internal counter, and then reading `.price` throws. So the internal counter can run ahead of the displayed `updateCount`.
- `connectWebSocket` resets only the internal counter. The displayed `updateCount` keeps its old value until the next record arrives.
- Late callbacks from a disposed socket are not discarded.
- `pointCounter` on the server is reset by `/reset` but is never incremented anywhere.

## Model

| member | source | states |
|---|---|---|
| Series.TakeLast | frontend/src/App.js:82-90 | the kept series has length min(len, cap) and is the suffix of the input, in order |
| Series.Push | frontend/src/App.js:82-85 | an append yields min(len+1, cap) entries ending with the new one; below capacity nothing is evicted; at capacity exactly the oldest is evicted |
| Series.TakeLastAppend | frontend/src/App.js:82-85 | truncating before further appends does not change what is finally kept |
| Series.PushAllKeepsNewest | frontend/src/App.js:82-85 | after any number of appends the series is exactly the newest `cap` of everything appended, in arrival order, and never over capacity |
| Series.NewestFromEmpty | frontend/src/App.js:82-85 | from empty, k appends keep exactly the last min(k, cap) values |
| Series.OverflowEvictsFirst | frontend/src/App.js:82-85 | after cap + 1 appends to an empty series, only the first value has been dropped |
| Endpoint.IndexFrom | frontend/src/App.js:58 | the search returns the first position where the pattern occurs, or none when it occurs nowhere |
| Endpoint.Includes | frontend/src/App.js:53 | `includes` holds iff the pattern occurs at some position |
| Endpoint.ReplaceFirst | frontend/src/App.js:58 | without an occurrence the string is unchanged; otherwise only the first occurrence is replaced |
| Endpoint.BackendHost | frontend/src/App.js:57-58 | the port rewrite keeps the host length, replaces the first "-3000." by "-8080." and keeps every other character, and is the identity when there is none |
| Endpoint.FirstPortSegment | frontend/src/App.js:58 | with no dot in the workspace name, the first "-3000." is the one right after the name |
| Endpoint.FeedUrl | frontend/src/App.js:52-62 | the feed URL uses `wss:` exactly when the page host contains "app.github.dev", and is then `wss://` + the rewritten host + `/ws` (host length + 9); otherwise it is `ws://localhost:8080/ws` |
| Endpoint.ResetUrl | frontend/src/App.js:121-130 | the reset URL uses `https:` exactly when the page host contains "app.github.dev", and is then `https://` + the rewritten host + `/reset` (host length + 14); otherwise it is `http://localhost:8080/reset` |
| Endpoint.CodespacesForwarding | frontend/src/App.js:52-62 | a `<name>-3000.app.github.dev` page gets `wss://<name>-8080.app.github.dev/ws` and `https://<name>-8080.app.github.dev/reset` |
| Endpoint.ResetTargetsFeedBackend | frontend/src/App.js:120-130 | for every host the reset URL is the feed URL with ws(s) switched to http(s) and /ws to /reset, so both target the same backend; off Codespaces both are localhost:8080 |
| ChartStats.ChartView | frontend/src/components/ChartSection.js:138-144 | the "Waiting for data..." placeholder is chosen exactly when the history is empty, the line chart otherwise |
| ChartStats.Minimum | frontend/src/components/ChartSection.js:101 | the minimum is an element of the history and no larger than any element |
| ChartStats.Maximum | frontend/src/components/ChartSection.js:102 | the maximum is an element of the history and no smaller than any element |
| ChartStats.CalculateStats | frontend/src/components/ChartSection.js:99-105 | an empty history gives min = max = avg = 0; otherwise min and max are extreme elements and avg is the mean |
| ChartStats.Mean | frontend/src/components/ChartSection.js:103 | the mean times the number of entries is the sum of the entries |
| ChartStats.SumBounds | frontend/src/components/ChartSection.js:103 | a sum of n entries within [lo, hi] lies within [n·lo, n·hi] |
| ChartStats.MeanOfBounded | frontend/src/components/ChartSection.js:103 | the mean of entries within [lo, hi] lies within [lo, hi] |
| ChartStats.AverageBetweenExtremes | frontend/src/components/ChartSection.js:101-103 | for a non-empty history min ≤ avg ≤ max |
| ChartStats.PlaceholderIffEmpty | frontend/src/components/ChartSection.js:138-144 | the "Waiting for data" placeholder is shown iff the history is empty, and then the stats are all zero; when the chart shows, min and max are data points |
| ChartStats.ConstantHistory | frontend/src/components/ChartSection.js:99-105 | a constant history has that constant as min, max and mean |
| Session.Connect | frontend/src/App.js:47-49 | connecting sets "Conectando..." and the counter to 0 and changes nothing else |
| Session.Initial | frontend/src/App.js:35-49 | the mounted client is connecting, with no price, an empty timestamp, empty series of equal length, both counters at 0 and the reconnect trigger at 0 |
| Session.OnMessage | frontend/src/App.js:72-91 | an unparseable frame changes nothing; a `null` frame only bumps the counter; a record bumps the counter by one, publishes it as updateCount, sets price and timestamp, and ends both bounded series with its price and label; equal length is preserved (pairing: `Session.StepKeepsPaired`) |
| Session.OnSocket | frontend/src/App.js:67-101 | open, error and close set "Conectado", "Erro na conexão" and "Desconectado" and touch nothing else |
| Session.HandleReconnect | frontend/src/App.js:106-116 | reconnect bumps the trigger, reconnects, and keeps the series, price, timestamp and displayed count |
| Session.OnResetSettled | frontend/src/App.js:136-155 | only an ok response clears series, price, timestamp and both counters and reconnects; a non-ok status or a rejected fetch leaves the state identical |
| Session.Step | frontend/src/App.js:82-90 | every event keeps the two series of equal length and within 200 |
| Session.RunKeepsSeriesAligned | frontend/src/App.js:82-90 | any sequence of events keeps the two series of equal length and within 200 |
| Session.PushProjects | frontend/src/App.js:82-90 | appending a record and keeping the newest 200 gives the same prices and labels as appending its price and label to the two series separately |
| Session.StepKeepsPaired | frontend/src/App.js:82-90 | series paired by at most 200 records (index i of the prices and of the labels both from record i) stay paired after every event |
| Session.RunKeepsSeriesPaired | frontend/src/App.js:82-90 | pairing survives any sequence of events, reconnects, resets and several sockets included |
| Session.InitialPaired | frontend/src/App.js:35-41 | the mounted client, and every client reachable from it by events, holds paired series |
| Session.DeliveriesAppendTicks | frontend/src/App.js:72-91 | frames on one socket leave as series the newest 200 of the old series followed by the records' prices (labels), in arrival order |
| Session.DeliveriesCount | frontend/src/App.js:73-79 | the counter grows by exactly the number of frames that parsed; status and trigger are untouched |
| Session.SeriesAfterReset | frontend/src/App.js:138-149 | after an ok reset, k records rebuild the series as their newest min(k, 200), index i of prices and labels coming from the same record, and the counter counts from 0 |
| Session.StepIgnoresGeneration | frontend/src/App.js:67-101 | a socket callback has the same effect whichever socket it came from |
| Session.StaleCloseAfterReset | frontend/src/App.js:106-111 | an ok reset (which reconnects while the old socket is still open), the new socket's open, then the old socket's close leave "Desconectado" though the new socket is open; the guarded step keeps "Conectado" |
| Session.StaleCloseRepeatsAfterClick | frontend/src/App.js:106-116 | after a stale close shows "Desconectado" over an open socket, a reconnect click, the new socket's open and the disposed socket's late close leave "Desconectado" again |
| Session.GuardedStep | frontend/src/App.js:106-111 | a callback from any generation but the current one leaves the state unchanged; equal length is preserved |
| Session.GuardedRunIgnoresStale | frontend/src/App.js:106-111 | with the guard, any burst of callbacks from earlier sockets leaves the session exactly as it was |
| Session.GuardedAgreesOnCurrent | frontend/src/App.js:67-101 | on current-socket callbacks and user actions the guarded step equals the step as written |
| StatsPanel.CalculateChange | frontend/src/components/StatsSection.js:35-42 | fewer than two points give (0, 0); otherwise value = newest − oldest and percentage·oldest = value·100, not finite when the oldest is 0 |
| StatsPanel.IsPositive | frontend/src/components/StatsSection.js:45 | a zero or rising change is shown as positive and a falling one as negative |
| StatsPanel.PositiveIffNotFalling | frontend/src/components/StatsSection.js:45 | the change shows as positive iff the newest retained price is not below the oldest (always, with fewer than two points) |
| StatsPanel.ChangeDependsOnlyOnEnds | frontend/src/components/StatsSection.js:37-38 | two histories with the same oldest and newest prices give the same change |
| StatsPanel.ChangeExamples | frontend/src/components/StatsSection.js:35-42 | [] and [7] give (0, 0); [100, 110] gives (10, 10%) |
| StatsPanel.FormatPrice | frontend/src/components/StatsSection.js:25-33 | the price card shows "US$ 0.00" iff the price is null or 0; any other price goes to the currency formatter unchanged |
| StatsPanel.Controls | frontend/src/components/StatsSection.js:115-136 | the reset button is always present; the reconnect button is present iff the status is "Desconectado" or "Erro na conexão" |
| StatsPanel.ReconnectOfferedOnlyWhenDown | frontend/src/components/StatsSection.js:116 | over the four client statuses, reconnect is offered exactly in the error and disconnected states |
| StatsPanel.ReconnectAfterEvents | frontend/src/components/StatsSection.js:116-126 | an error or close callback brings up the reconnect button; opening or clicking reconnect removes it |
| StatsPanel.PriceCardAcrossSession | frontend/src/components/StatsSection.js:26 | before the first record and after an ok reset the card reads "US$ 0.00"; after a record with a non-zero price it shows that price |
| Backend.NewHub | backend/main.go:36-45 | a new hub has no clients, empty history and cap 200 |
| Backend.Reset | backend/main.go:48-53 | reset empties the history and keeps the cap and the clients |
| Backend.Register | backend/main.go:59-61 | registering adds the connection and leaves the history alone |
| Backend.Unregister | backend/main.go:76-83 | a registered connection is removed (one fewer client); an absent one leaves the hub identical |
| Backend.Broadcast | backend/main.go:85-92 | the history stays within its cap, ends with the new point, and below the cap is the old history plus the point |
| Backend.BroadcastIsPush | backend/main.go:88-91 | Go's append-and-cut is the shared append-and-keep-newest operation |
| Backend.BroadcastAllKeepsNewest | backend/main.go:85-92 | after k broadcasts the history is exactly the newest maxHistory points in arrival order, within the cap |
| Backend.InitialServer | backend/main.go:109-117 | the server starts with an empty new hub, price 10000, trend 0 and point counter 0, in range |
| Backend.DriftedTrend | backend/main.go:126-127 | the drifted trend equals trend + drift when that is within [-1, 1], and saturates at 1 above and at −1 below |
| Backend.ProposedPrice | backend/main.go:126-136 | with a draw in [0, 1], a trend in [-1, 1] and non-negative elapsed time, one step moves the unclamped price by at most 500·√elapsed + 100·elapsed either way |
| Backend.NextPrice | backend/main.go:120-149 | the returned price is the new current price in [10000, 15000] and the trend stays in [-1, 1]; below the floor gives 10000 and trend 0.5, above the ceiling 15000 and trend −0.5, otherwise the unclamped move |
| Backend.GeneratorTick | backend/main.go:156-163 | one generator tick sets the price and trend `getBitcoinPrice` computes, broadcasts that price with its label, and leaves the point counter alone |
| Backend.GenerateKeepsInvariants | backend/main.go:152-164 | for any draws the history stays within the cap and holds only prices in [10000, 15000] |
| Backend.TickKeepsHistoryInRange | backend/main.go:85-92 | broadcasting an in-range point keeps every stored price in range |
| Backend.Emitted | backend/main.go:152-164 | the generator emits one point per tick, each priced within [10000, 15000] |
| Backend.GenerateBroadcastsEmitted | backend/main.go:152-164 | running the generator leaves the same hub as broadcasting its emitted points one after another |
| Backend.GenerateHistoryLength | backend/main.go:85-92 | each tick adds at most one point and never changes the cap |
| Backend.HandleReset | backend/main.go:186-218 | OPTIONS gives 200 and no change; other non-POST methods give 405 and no change; POST empties history, zeroes the counter, sets price 10000 and trend 0, keeps clients and cap, and gives 200 |
| Backend.ResetIdempotent | backend/main.go:202-212 | two POST resets leave the same server as one |
| Backend.HistoryAfterReset | backend/main.go:202-212 | after a POST reset, the history is exactly the newest maxHistory of the points generated since, in generation order, all in range |
| EndToEnd.ResetRoundTrip | frontend/src/App.js:132-149 | a POST reset empties the server history, and its 200 makes the client clear its series, price and counters and reconnect |
| EndToEnd.LostResponseLeavesClientStale | frontend/src/App.js:132-155 | a POST the server applies whose response never arrives leaves the server's history empty and the client's state unchanged |
| EndToEnd.RefusedResetChangesNothing | backend/main.go:197-200 | a method the server refuses with 405 changes neither the server nor the client |
| EndToEnd.ChangeWithinServerBand | frontend/src/components/StatsSection.js:36-40 | with all prices in [10000, 15000] the percentage is finite and between −33.33…% and +50% |
| EndToEnd.ChartStatsWithinServerBand | frontend/src/components/ChartSection.js:99-105 | with all prices in [10000, 15000], min, max and mean are in that band too |

## Findings

| source | as written | input that shows it | evidently intended | confidence | as-written member | corrected member |
|---|---|---|---|---|---|---|
| frontend/src/App.js:106-111 | the effect cleanup calls `ws.close()` but leaves the old socket's handlers attached, so its asynchronous `onclose` still writes the status | an ok reset response (it bumps the reconnect trigger while the current socket is still open), then the new socket's `onopen`, then the old socket's `onclose`: status "Desconectado" and the reconnect button shown while the new socket is open | callbacks of a disposed socket are ignored | medium, not executed | Session.StaleCloseAfterReset | Session.GuardedStep |

The reconnect button is not the first trigger: while the current socket is
healthy it is not offered, and after a real error or close that socket has
nothing left to report. An ok reset is the first trigger, because it
replaces a socket that is still open. Once a stale close has shown the
button over an open socket, a click repeats the hazard
(`Session.StaleCloseRepeatsAfterClick`).

`Session.Step` models the code as written. `Session.GuardedStep` drops a
callback whose generation is not the current reconnect trigger, and
`Session.GuardedRunIgnoresStale` proves that stale callbacks then leave the
session untouched. `Session.GuardedAgreesOnCurrent` shows the two steps
agree on every current-socket callback and every user action. So every
series and counter property proved for one socket's deliveries holds for
the corrected client as well.

## Left out

- Transport: the WebSocket and `fetch` transports are abstract events (open, frame, error, close; response status or rejection). `conn.WriteJSON`, `ReadMessage`, `handleWebSocket`'s read loop and `main` are network I/O.
- Concurrency: `Hub.run`'s goroutine, channels and mutex, and the goroutine that unregisters a connection after a failed write. Hub operations, generator ticks and `/reset` requests are applied one at a time.
- Backend.HistoryAfterReset: holds only under that one-at-a-time order. `handleReset` writes `currentPrice` and `trend` without a lock (main.go:211-212) while `getBitcoinPrice` reads and writes them (main.go:136-146). A point already queued in the 256-slot broadcast channel (main.go:39, 162) before a reset can also land in the emptied history. Neither race is modelled.
- Backend.Register: the replay of the history to a new connection, with its mid-loop `break` on a write error, is socket I/O and is not modelled.
- Clock and randomness: `time.Since`, `time.Now`, `rand.Float64`, `math.Sqrt` and the 50 ms ticker are parameters (`Backend.Draw`, the label string). The `15:04:05` label format is not modelled. `lastUpdateTimeRef` is written but never read, so it is not modelled.
- Floating point: prices, sums and ratios are exact reals. IEEE rounding, NaN and infinities from the Go `math` functions are out of scope. The one non-finite case the client can show is `StatsPanel.Percent.NotFinite`.
- StatsPanel.CalculateChange: returns the exact percentage; the `toFixed(2)` rounding to a display string is not modelled.
- StatsPanel.FormatPrice: `Intl.NumberFormat` rendering of a non-zero price is only marked as `Currency(amount)`; the locale formatting is not modelled. `toLocaleString` of the update count and the chart's `toFixed` are also not modelled.
- EndToEnd.ResetRoundTrip: covers only the path where the server's 200 reaches the client; when the response is lost the two sides disagree, as `EndToEnd.LostResponseLeavesClientStale` states.
- Session.OnMessage: a frame that parses to something other than `null` or a `{price, timestamp}` record (missing fields, wrong types) is not modelled.
- React scheduling: state updates are applied one at a time in delivery order. An effect run is folded into the event that changed the reconnect trigger. Unmounting the component is not modelled.
- CORS headers written by `handleReset` and the `Content-Type` header are not modelled; only the status and body are.
- Presentation: Header, Footer, HeroSection and AboutSection, animations, icons and the Chart.js configuration carry no state.
- Logging (`console.log`, `log.Printf`).

=== FILE: backend.dfy ===
/**
 * The Go server (backend/main.go): the broadcast hub's client set and
 * bounded history, the simulated price step, and the `/reset` handler.
 *
 * The package-level variables `currentPrice`, `trend` and `pointCounter`
 * and the hub become one immutable `Server` value. The two
 * `rand.Float64()` draws, the elapsed seconds since the previous step and
 * their square root come in as a `Draw`.
 */
module Backend {
  import Series

  /** `maxHistory` of `newHub`. */
  const MaxHistory: nat := 200
  const FloorPrice: real := 10000.0
  const CeilingPrice: real := 15000.0
  const Volatility: real := 500.0

  datatype PricePoint = PricePoint(price: real, timestamp: string)

  /** A connection is identified by an opaque number. */
  type ConnId = nat

  datatype Hub = Hub(clients: set<ConnId>, history: seq<PricePoint>, maxHistory: nat)

  /** The hub holds no more history than its cap. */
  predicate HubBounded(h: Hub)
  {
    |h.history| <= h.maxHistory
  }

  function NewHub(): (h: Hub)
    ensures HubBounded(h) && h.maxHistory == MaxHistory && h.history == [] && h.clients == {}
  {
    Hub({}, [], MaxHistory)
  }

  /** `reset`: empty the history; the cap and the clients stay. */
  function Reset(h: Hub): (r: Hub)
    ensures r.history == [] && HubBounded(r)
    ensures r.maxHistory == h.maxHistory && r.clients == h.clients
  {
    h.(history := [])
  }

  /** The `register` case, without the replay of the history to the new connection. */
  function Register(h: Hub, conn: ConnId): (r: Hub)
    ensures r.clients == h.clients + {conn}
    ensures r.history == h.history && r.maxHistory == h.maxHistory
  {
    h.(clients := h.clients + {conn})
  }

  /** The `unregister` case: a connection is removed (and closed) only if it is registered. */
  function Unregister(h: Hub, conn: ConnId): (r: Hub)
    ensures conn !in r.clients
    ensures conn in h.clients ==> r.clients == h.clients - {conn} && |r.clients| == |h.clients| - 1
    ensures conn !in h.clients ==> r == h
    ensures r.history == h.history && r.maxHistory == h.maxHistory
  {
    if conn in h.clients then h.(clients := h.clients - {conn}) else h
  }

  /**
   * The `broadcast` case, history part: append, then cut the front when the
   * length went over `maxHistory`.
   */
  function Broadcast(h: Hub, p: PricePoint): (r: Hub)
    ensures HubBounded(r)
    ensures r.clients == h.clients && r.maxHistory == h.maxHistory
    ensures h.maxHistory > 0 ==> 0 < |r.history| && r.history[|r.history| - 1] == p
    ensures |h.history| < h.maxHistory ==> r.history == h.history + [p]
  {
    var appended := h.history + [p];
    if |appended| > h.maxHistory then
      h.(history := appended[|appended| - h.maxHistory..])
    else
      h.(history := appended)
  }

  /** The Go truncation is the shared "append and keep the newest" operation. */
  lemma BroadcastIsPush(h: Hub, p: PricePoint)
    ensures Broadcast(h, p).history == Series.Push(h.history, p, h.maxHistory)
  {
  }

  function BroadcastAll(h: Hub, ps: seq<PricePoint>): Hub
    decreases |ps|
  {
    if |ps| == 0 then h else BroadcastAll(Broadcast(h, ps[0]), ps[1..])
  }

  /**
   * FIFO retention on the server: after k broadcasts the history holds
   * exactly the newest min(k, maxHistory) of everything it held, in arrival
   * order, and never more than the cap.
   */
  lemma {:induction false} BroadcastAllKeepsNewest(h: Hub, ps: seq<PricePoint>)
    requires HubBounded(h)
    ensures BroadcastAll(h, ps).history == Series.TakeLast(h.history + ps, h.maxHistory)
    ensures HubBounded(BroadcastAll(h, ps))
    ensures BroadcastAll(h, ps).maxHistory == h.maxHistory
    decreases |ps|
  {
    if |ps| == 0 {
      assert h.history + ps == h.history;
    } else {
      var h' := Broadcast(h, ps[0]);
      BroadcastIsPush(h, ps[0]);
      assert BroadcastAll(h, ps) == BroadcastAll(h', ps[1..]);
      BroadcastAllKeepsNewest(h', ps[1..]);
      Series.PushThenAppend(h.history, ps[0], ps[1..], h.maxHistory);
      assert [ps[0]] + ps[1..] == ps;
      assert h'.history + ps[1..] == Series.Push(h.history, ps[0], h.maxHistory) + ps[1..];
    }
  }

  /** The simulator's package-level state. */
  datatype Server = Server(hub: Hub, currentPrice: real, trend: real, pointCounter: int)

  /** The price and trend stay within their documented ranges. */
  predicate InRange(s: Server)
  {
    FloorPrice <= s.currentPrice <= CeilingPrice && -1.0 <= s.trend <= 1.0
  }

  function InitialServer(): (s: Server)
    ensures InRange(s) && HubBounded(s.hub)
    ensures s.hub == NewHub() && s.currentPrice == 10000.0 && s.trend == 0.0 && s.pointCounter == 0
  {
    Server(NewHub(), 10000.0, 0.0, 0)
  }

  /** Inputs of one step: seconds since the last step, its square root, two uniform draws. */
  datatype Draw = Draw(elapsed: real, sqrtElapsed: real, u1: real, u2: real)

  function MaxReal(a: real, b: real): real { if a >= b then a else b }
  function MinReal(a: real, b: real): real { if a <= b then a else b }

  /** The trend after its random drift, kept in [-1, 1]. */
  function DriftedTrend(trend: real, d: Draw): (t: real)
    ensures -1.0 <= t <= 1.0
    ensures -1.0 <= trend + (d.u1 - 0.5) * 0.1 <= 1.0 ==> t == trend + (d.u1 - 0.5) * 0.1
    ensures trend + (d.u1 - 0.5) * 0.1 > 1.0 ==> t == 1.0
    ensures trend + (d.u1 - 0.5) * 0.1 < -1.0 ==> t == -1.0
  {
    MaxReal(-1.0, MinReal(1.0, trend + (d.u1 - 0.5) * 0.1))
  }

  /**
   * The price before clamping: a random move scaled by volatility and
   * sqrt(elapsed), plus trend * 100 * elapsed. With a draw in [0, 1] and a
   * trend in [-1, 1], one step moves the price by at most
   * 500 * sqrt(elapsed) + 100 * elapsed either way.
   */
  function ProposedPrice(price: real, trend: real, d: Draw): (p: real)
    ensures 0.0 <= d.u2 <= 1.0 && 0.0 <= d.sqrtElapsed && 0.0 <= d.elapsed && -1.0 <= trend <= 1.0 ==>
      var reach := Volatility * d.sqrtElapsed + 100.0 * d.elapsed;
      price - reach <= p <= price + reach
  {
    BoundedMove(price, d.u2 * 2.0 - 1.0, Volatility * d.sqrtElapsed, trend, 100.0 * d.elapsed);
    price + (d.u2 * 2.0 - 1.0) * (Volatility * d.sqrtElapsed) + trend * (100.0 * d.elapsed)
  }

  /** Two moves, each a factor in [-1, 1] of a non-negative magnitude, stay within the summed magnitudes. */
  lemma BoundedMove(price: real, f: real, m: real, g: real, n: real)
    ensures -1.0 <= f <= 1.0 && 0.0 <= m && -1.0 <= g <= 1.0 && 0.0 <= n ==>
      price - (m + n) <= price + f * m + g * n <= price + (m + n)
  {
    if -1.0 <= f <= 1.0 && 0.0 <= m && -1.0 <= g <= 1.0 && 0.0 <= n {
      assert -m <= f * m <= m;
      assert -n <= g * n <= n;
    }
  }

  datatype Quote = Quote(server: Server, price: real)

  /**
   * `getBitcoinPrice`: drift the trend, move the price, then clamp it into
   * [10000, 15000]; hitting the floor forces the trend to 0.5 (recovery),
   * hitting the ceiling forces it to -0.5 (correction). The returned price
   * is the new `currentPrice`; the hub and the counter are untouched.
   */
  function NextPrice(s: Server, d: Draw): (q: Quote)
    ensures q.price == q.server.currentPrice
    ensures InRange(q.server)
    ensures q.server.hub == s.hub && q.server.pointCounter == s.pointCounter
    ensures var t := DriftedTrend(s.trend, d); var p := ProposedPrice(s.currentPrice, t, d);
      && (p < FloorPrice ==> q.price == FloorPrice && q.server.trend == 0.5)
      && (p > CeilingPrice ==> q.price == CeilingPrice && q.server.trend == -0.5)
      && (FloorPrice <= p <= CeilingPrice ==> q.price == p && q.server.trend == t)
  {
    var t := DriftedTrend(s.trend, d);
    var p := ProposedPrice(s.currentPrice, t, d);
    var s1 := s.(currentPrice := p, trend := t);
    var s2 := if s1.currentPrice < FloorPrice then s1.(currentPrice := FloorPrice, trend := 0.5) else s1;
    var s3 := if s2.currentPrice > CeilingPrice then s2.(currentPrice := CeilingPrice, trend := -0.5) else s2;
    Quote(s3, s3.currentPrice)
  }

  /**
   * One tick of `priceGenerator`: compute the next price and broadcast it
   * with its label; the counter is not touched.
   */
  function GeneratorTick(s: Server, d: Draw, stamp: string): (r: Server)
    ensures InRange(r)
    ensures r.currentPrice == NextPrice(s, d).price && r.trend == NextPrice(s, d).server.trend
    ensures r.pointCounter == s.pointCounter
    ensures r.hub == Broadcast(s.hub, PricePoint(r.currentPrice, stamp))
  {
    var q := NextPrice(s, d);
    q.server.(hub := Broadcast(q.server.hub, PricePoint(q.price, stamp)))
  }

  /** The history only holds prices within [10000, 15000]. */
  predicate HistoryInRange(h: Hub)
  {
    forall i :: 0 <= i < |h.history| ==> FloorPrice <= h.history[i].price <= CeilingPrice
  }

  function Generate(s: Server, ds: seq<Draw>, labels: seq<string>): Server
    requires |ds| == |labels|
    decreases |ds|
  {
    if |ds| == 0 then s else Generate(GeneratorTick(s, ds[0], labels[0]), ds[1..], labels[1..])
  }

  /**
   * Whatever the draws, the generator keeps the price and trend in range,
   * the history within its cap and every stored price within [10000, 15000].
   */
  lemma {:induction false} GenerateKeepsInvariants(s: Server, ds: seq<Draw>, labels: seq<string>)
    requires |ds| == |labels|
    requires HubBounded(s.hub) && HistoryInRange(s.hub)
    ensures HubBounded(Generate(s, ds, labels).hub) && HistoryInRange(Generate(s, ds, labels).hub)
    ensures |ds| > 0 ==> InRange(Generate(s, ds, labels))
    decreases |ds|
  {
    if |ds| > 0 {
      var s' := GeneratorTick(s, ds[0], labels[0]);
      TickKeepsHistoryInRange(s.hub, s'.hub, PricePoint(s'.currentPrice, labels[0]));
      GenerateKeepsInvariants(s', ds[1..], labels[1..]);
    }
  }

  /** Broadcasting an in-range point keeps every stored price in range. */
  lemma TickKeepsHistoryInRange(h: Hub, h': Hub, p: PricePoint)
    requires HistoryInRange(h) && FloorPrice <= p.price <= CeilingPrice
    requires h' == Broadcast(h, p)
    ensures HistoryInRange(h')
  {
    var appended := h.history + [p];
    BroadcastIsPush(h, p);
    assert h'.history == appended[|appended| - |h'.history|..];
    forall i | 0 <= i < |h'.history|
      ensures FloorPrice <= h'.history[i].price <= CeilingPrice
    {
      assert h'.history[i] == appended[|appended| - |h'.history| + i];
    }
  }

  /** An HTTP reply: status code and body. */
  datatype Reply = Reply(server: Server, status: int, body: string)

  const StatusOK := 200
  const StatusMethodNotAllowed := 405

  /**
   * `handleReset`: a CORS preflight (OPTIONS) is answered 200 with no
   * effect; any other method but POST gets 405 with no effect; a POST empties
   * the history, zeroes the point counter, puts the price back to 10000 and
   * the trend to 0, and answers 200 with a JSON acknowledgement.
   */
  function HandleReset(s: Server, httpMethod: string): (r: Reply)
    ensures r.status == StatusOK <==> httpMethod == "OPTIONS" || httpMethod == "POST"
    ensures r.status == StatusMethodNotAllowed <==> httpMethod != "OPTIONS" && httpMethod != "POST"
    ensures httpMethod != "POST" ==> r.server == s
    ensures httpMethod == "POST" ==>
      && r.server.hub.history == []
      && r.server.hub.maxHistory == s.hub.maxHistory
      && r.server.hub.clients == s.hub.clients
      && r.server.pointCounter == 0
      && r.server.currentPrice == 10000.0
      && r.server.trend == 0.0
      && InRange(r.server)
  {
    if httpMethod == "OPTIONS" then
      Reply(s, StatusOK, "")
    else if httpMethod != "POST" then
      Reply(s, StatusMethodNotAllowed, "Método não permitido\n")
    else
      var s' := Server(Reset(s.hub), 10000.0, 0.0, 0);
      Reply(s', StatusOK, "{\"status\":\"ok\",\"message\":\"Cache resetado com sucesso\"}")
  }

  /** Resetting twice leaves the same server as resetting once. */
  lemma ResetIdempotent(s: Server)
    ensures HandleReset(HandleReset(s, "POST").server, "POST").server == HandleReset(s, "POST").server
  {
  }

  /** The points the generator broadcasts, one per tick and in order; each lies within [10000, 15000]. */
  function Emitted(s: Server, ds: seq<Draw>, labels: seq<string>): (ps: seq<PricePoint>)
    requires |ds| == |labels|
    ensures |ps| == |ds|
    ensures forall i :: 0 <= i < |ps| ==> FloorPrice <= ps[i].price <= CeilingPrice
    decreases |ds|
  {
    if |ds| == 0 then []
    else
      var s' := GeneratorTick(s, ds[0], labels[0]);
      [PricePoint(s'.currentPrice, labels[0])] + Emitted(s', ds[1..], labels[1..])
  }

  /** Running the generator is broadcasting the points it emits, one after another. */
  lemma {:induction false} GenerateBroadcastsEmitted(s: Server, ds: seq<Draw>, labels: seq<string>)
    requires |ds| == |labels|
    ensures Generate(s, ds, labels).hub == BroadcastAll(s.hub, Emitted(s, ds, labels))
    decreases |ds|
  {
    if |ds| > 0 {
      var s' := GeneratorTick(s, ds[0], labels[0]);
      var ps := Emitted(s, ds, labels);
      GenerateBroadcastsEmitted(s', ds[1..], labels[1..]);
      assert ps[0] == PricePoint(s'.currentPrice, labels[0]);
      assert ps[1..] == Emitted(s', ds[1..], labels[1..]);
    }
  }

  /**
   * After a POST reset, the history consists of exactly the points generated
   * since, the newest `maxHistory` of them in generation order, all in range.
   */
  lemma HistoryAfterReset(s: Server, ds: seq<Draw>, labels: seq<string>)
    requires |ds| == |labels|
    ensures var s0 := HandleReset(s, "POST").server;
      var h := Generate(s0, ds, labels).hub;
      && h.history == Series.TakeLast(Emitted(s0, ds, labels), s.hub.maxHistory)
      && |h.history| <= s.hub.maxHistory && |h.history| <= |ds| && HistoryInRange(h)
  {
    var s0 := HandleReset(s, "POST").server;
    var ps := Emitted(s0, ds, labels);
    GenerateBroadcastsEmitted(s0, ds, labels);
    BroadcastAllKeepsNewest(s0.hub, ps);
    assert s0.hub.history + ps == ps;
    GenerateKeepsInvariants(s0, ds, labels);
  }

  /** Each generator tick adds at most one point to the history, and the cap never changes. */
  lemma {:induction false} GenerateHistoryLength(s: Server, ds: seq<Draw>, labels: seq<string>)
    requires |ds| == |labels|
    ensures |Generate(s, ds, labels).hub.history| <= |s.hub.history| + |ds|
    ensures Generate(s, ds, labels).hub.maxHistory == s.hub.maxHistory
    decreases |ds|
  {
    if |ds| > 0 {
      GenerateHistoryLength(GeneratorTick(s, ds[0], labels[0]), ds[1..], labels[1..]);
    }
  }
}

=== FILE: chart_stats.dfy ===
/**
 * Statistics card and chart area of the price-history section
 * (`calculateStats` and the render condition in ChartSection.js). Prices are
 * exact reals; `toFixed` display rounding is not modelled.
 */
module ChartStats {

  datatype Stats = Stats(min: real, max: real, avg: real)

  /** What the chart canvas shows. */
  datatype View = LineChart | WaitingForData

  /** Left-to-right sum, as `reduce((a, b) => a + b, 0)`. */
  function Sum(s: seq<real>): real
  {
    if |s| == 0 then 0.0 else Sum(s[..|s| - 1]) + s[|s| - 1]
  }

  /** `Math.min(...s)` on a non-empty array: an element no larger than any other. */
  function Minimum(s: seq<real>): (m: real)
    requires |s| > 0
    ensures exists i :: 0 <= i < |s| && s[i] == m
    ensures forall i :: 0 <= i < |s| ==> m <= s[i]
  {
    if |s| == 1 then s[0]
    else
      var m := Minimum(s[1..]);
      if s[0] < m then s[0] else m
  }

  /** `Math.max(...s)` on a non-empty array: an element no smaller than any other. */
  function Maximum(s: seq<real>): (m: real)
    requires |s| > 0
    ensures exists i :: 0 <= i < |s| && s[i] == m
    ensures forall i :: 0 <= i < |s| ==> s[i] <= m
  {
    if |s| == 1 then s[0]
    else
      var m := Maximum(s[1..]);
      if s[0] > m then s[0] else m
  }

  /**
   * `calculateStats`: all zero for an empty history (the explicit empty-input
   * policy), otherwise the extremes of the history and its arithmetic mean.
   */
  function CalculateStats(h: seq<real>): (r: Stats)
    ensures |h| == 0 ==> r == Stats(0.0, 0.0, 0.0)
    ensures |h| > 0 ==> (exists i :: 0 <= i < |h| && h[i] == r.min) && forall i :: 0 <= i < |h| ==> r.min <= h[i]
    ensures |h| > 0 ==> (exists i :: 0 <= i < |h| && h[i] == r.max) && forall i :: 0 <= i < |h| ==> h[i] <= r.max
    ensures |h| > 0 ==> r.avg == Mean(h)
  {
    if |h| == 0 then Stats(0.0, 0.0, 0.0)
    else Stats(Minimum(h), Maximum(h), Mean(h))
  }

  /** The arithmetic mean of a non-empty history: scaled by the count it gives back the total. */
  function Mean(h: seq<real>): (m: real)
    requires |h| > 0
    ensures m * (|h| as real) == Sum(h)
  {
    DivideThenScale(Sum(h), |h| as real);
    Sum(h) / (|h| as real)
  }

  /** Dividing by a positive count and scaling back gives the total again. */
  lemma DivideThenScale(total: real, n: real)
    requires n > 0.0
    ensures (total / n) * n == total
  {
  }

  /** The chart is drawn when there is data, otherwise the "Waiting for data..." placeholder. */
  function ChartView(h: seq<real>): (v: View)
    ensures v == WaitingForData <==> |h| == 0
  {
    if |h| > 0 then LineChart else WaitingForData
  }

  /** A sum of entries all within [lo, hi] lies within [n * lo, n * hi]. */
  lemma {:induction false} SumBounds(s: seq<real>, lo: real, hi: real)
    requires forall i :: 0 <= i < |s| ==> lo <= s[i] <= hi
    ensures (|s| as real) * lo <= Sum(s) <= (|s| as real) * hi
    decreases |s|
  {
    if |s| > 0 {
      var init := s[..|s| - 1];
      SumBounds(init, lo, hi);
      var n := |init| as real;
      assert n * lo + lo <= Sum(s) <= n * hi + hi;
      assert (n + 1.0) * lo == n * lo + lo;
      assert (n + 1.0) * hi == n * hi + hi;
    }
  }

  lemma MeanBounds(total: real, n: real, lo: real, hi: real)
    requires n > 0.0
    requires n * lo <= total <= n * hi
    ensures lo <= total / n <= hi
  {
    var q := total / n;
    assert total == n * q;
  }

  /** For a non-empty history the mean lies between the minimum and the maximum. */
  lemma AverageBetweenExtremes(h: seq<real>)
    requires |h| > 0
    ensures CalculateStats(h).min <= CalculateStats(h).avg <= CalculateStats(h).max
  {
    MeanOfBounded(h, Minimum(h), Maximum(h));
  }

  /** The mean of entries all within [lo, hi] is within [lo, hi]. */
  lemma MeanOfBounded(h: seq<real>, lo: real, hi: real)
    requires |h| > 0
    requires forall i :: 0 <= i < |h| ==> lo <= h[i] <= hi
    ensures lo <= Sum(h) / (|h| as real) <= hi
  {
    SumBounds(h, lo, hi);
    MeanBounds(Sum(h), |h| as real, lo, hi);
  }

  /**
   * The placeholder is shown exactly when the statistics cards fall back to
   * their all-zero policy because there is no data; whenever the chart is
   * drawn, every card shows a value taken from (or averaged over) the data.
   */
  lemma PlaceholderIffEmpty(h: seq<real>)
    ensures ChartView(h) == WaitingForData <==> |h| == 0
    ensures ChartView(h) == WaitingForData ==> CalculateStats(h) == Stats(0.0, 0.0, 0.0)
    ensures ChartView(h) == LineChart ==> CalculateStats(h).min in h && CalculateStats(h).max in h
  {
  }

  /** A constant history has that constant as minimum, maximum and mean. */
  lemma {:induction false} ConstantHistory(h: seq<real>, v: real)
    requires |h| > 0
    requires forall i :: 0 <= i < |h| ==> h[i] == v
    ensures CalculateStats(h) == Stats(v, v, v)
  {
    SumBounds(h, v, v);
  }
}

=== FILE: end_to_end.dfy ===
/**
 * Properties that connect the browser client to the Go server: the reset
 * round trip, and what the server's price clamp implies for the figures the
 * client derives.
 */
module EndToEnd {
  import Session
  import Backend
  import ChartStats
  import StatsPanel

  /**
   * The client's reset POST: the server empties its history and restarts
   * its price, and its 200 reaches the client as `response.ok`, so the
   * client clears its own series, latest price and counters and reconnects.
   * This covers the path where the 200 reaches the client; see
   * `LostResponseLeavesClientStale` for the path where it does not.
   */
  lemma ResetRoundTrip(c: Session.Client, s: Backend.Server)
    ensures var reply := Backend.HandleReset(s, "POST");
      var c' := Session.OnResetSettled(c, Session.Responded(reply.status));
      && reply.server.hub.history == [] && reply.server.currentPrice == 10000.0
      && c'.priceHistory == [] && c'.timeLabels == [] && c'.price.None?
      && c'.messageCount == 0 && c'.updateCount == 0
      && c'.status == Session.Connecting
  {
  }

  /**
   * A POST the server applies but whose response never reaches the client
   * (the fetch promise rejects) leaves the server reset and the client's
   * series, price and counters exactly as they were.
   */
  lemma LostResponseLeavesClientStale(c: Session.Client, s: Backend.Server)
    ensures Backend.HandleReset(s, "POST").server.hub.history == []
    ensures Session.OnResetSettled(c, Session.FetchRejected) == c
  {
  }

  /**
   * A reset the server refuses with 405 (any method other than POST and the
   * OPTIONS preflight) changes neither the server nor the client.
   */
  lemma RefusedResetChangesNothing(c: Session.Client, s: Backend.Server, httpMethod: string)
    requires httpMethod != "POST" && httpMethod != "OPTIONS"
    ensures Backend.HandleReset(s, httpMethod).server == s
    ensures Session.OnResetSettled(c, Session.Responded(Backend.HandleReset(s, httpMethod).status)) == c
  {
  }

  /** All prices lie within the server's clamp band. */
  predicate InServerBand(h: seq<real>)
  {
    forall i :: 0 <= i < |h| ==> Backend.FloorPrice <= h[i] <= Backend.CeilingPrice
  }

  lemma RatioBounds(p: real, first: real, value: real)
    requires first > 0.0
    requires p * first == value * 100.0
    requires -100.0 / 3.0 * first <= value * 100.0 <= 50.0 * first
    ensures -100.0 / 3.0 <= p <= 50.0
  {
  }

  /**
   * With every price inside [10000, 15000] the first price is never 0, so
   * the change percentage is always a finite number, and it lies between
   * -33.33...% (15000 down to 10000) and +50% (10000 up to 15000).
   */
  lemma ChangeWithinServerBand(h: seq<real>)
    requires InServerBand(h)
    ensures StatsPanel.CalculateChange(h).percentage.Finite?
    ensures -100.0 / 3.0 <= StatsPanel.CalculateChange(h).percentage.value <= 50.0
  {
    var c := StatsPanel.CalculateChange(h);
    if |h| >= 2 {
      var first, last := h[0], h[|h| - 1];
      assert 10000.0 <= first <= 15000.0 && 10000.0 <= last <= 15000.0;
      assert c.value == last - first;
      RatioBounds(c.percentage.value, first, c.value);
    }
  }

  /** With every price inside the band, the three chart figures are inside it too (zero only when empty). */
  lemma ChartStatsWithinServerBand(h: seq<real>)
    requires InServerBand(h) && |h| > 0
    ensures Backend.FloorPrice <= ChartStats.CalculateStats(h).min
    ensures ChartStats.CalculateStats(h).max <= Backend.CeilingPrice
    ensures Backend.FloorPrice <= ChartStats.CalculateStats(h).avg <= Backend.CeilingPrice
  {
    ChartStats.AverageBetweenExtremes(h);
  }
}

=== FILE: endpoint.dfy ===
/**
 * Endpoint resolver of the browser client (`connectWebSocket` and
 * `handleReset` in App.js): from the page's host name to the live-feed URL
 * and the reset URL. In a Codespaces workspace the page is served on the
 * forwarded port 3000 and the backend on the forwarded port 8080, so the
 * port segment of the host is rewritten; anywhere else the backend is on
 * localhost:8080.
 */
module Endpoint {
  import opened Wrappers

  const CodespacesDomain := "app.github.dev"
  const FrontendPortSegment := "-3000."
  const BackendPortSegment := "-8080."
  const LocalFeedUrl := "ws://localhost:8080/ws"
  const LocalResetUrl := "http://localhost:8080/reset"

  /** `pat` starts at position `i` of `s`. */
  predicate OccursAt(s: string, pat: string, i: nat)
  {
    i + |pat| <= |s| && s[i..i + |pat|] == pat
  }

  /** First position at or after `from` where `pat` occurs (String.prototype.indexOf). */
  function IndexFrom(s: string, pat: string, from: nat): (r: Option<nat>)
    ensures r.Some? ==> from <= r.value && OccursAt(s, pat, r.value)
    ensures r.Some? ==> forall j :: from <= j < r.value ==> !OccursAt(s, pat, j)
    ensures r.None? ==> forall j :: from <= j ==> !OccursAt(s, pat, j)
    decreases |s| - from
  {
    if from + |pat| > |s| then None
    else if s[from..from + |pat|] == pat then Some(from)
    else IndexFrom(s, pat, from + 1)
  }

  function IndexOf(s: string, pat: string): Option<nat>
  {
    IndexFrom(s, pat, 0)
  }

  /** String.prototype.includes: some occurrence exists. */
  function Includes(s: string, pat: string): (b: bool)
    ensures b <==> exists i :: 0 <= i <= |s| && OccursAt(s, pat, i)
  {
    IndexOf(s, pat).Some?
  }

  /**
   * String.prototype.replace with a string pattern: only the FIRST
   * occurrence is replaced; with no occurrence the string is returned as is.
   * (The replacement used here holds no `$`, so no substitution patterns apply.)
   */
  function ReplaceFirst(s: string, pat: string, rep: string): (r: string)
    ensures !Includes(s, pat) ==> r == s
    ensures Includes(s, pat) ==>
      var i := IndexOf(s, pat).value;
      && (forall j :: 0 <= j < i ==> !OccursAt(s, pat, j))
      && r == s[..i] + rep + s[i + |pat|..]
  {
    match IndexOf(s, pat)
    case None => s
    case Some(i) => s[..i] + rep + s[i + |pat|..]
  }

  predicate IsCodespaces(host: string)
  {
    Includes(host, CodespacesDomain)
  }

  /**
   * Host of the backend as the page derives it: `hostname.replace("-3000.", "-8080.")`.
   * The rewrite swaps one six-character port segment for another of the same
   * length: the result has the host's length, carries the backend segment
   * where the first frontend segment was and every other character of the
   * host unchanged, and is the host itself when there is none.
   */
  function BackendHost(host: string): (r: string)
    ensures |r| == |host|
    ensures Includes(host, FrontendPortSegment) ==>
      OccursAt(r, BackendPortSegment, IndexOf(host, FrontendPortSegment).value)
    ensures !Includes(host, FrontendPortSegment) ==> r == host
    ensures Includes(host, FrontendPortSegment) ==>
      var i := IndexOf(host, FrontendPortSegment).value;
      r == host[..i] + BackendPortSegment + host[i + 6..]
  {
    var r := ReplaceFirst(host, FrontendPortSegment, BackendPortSegment);
    if Includes(host, FrontendPortSegment) then
      var i := IndexOf(host, FrontendPortSegment).value;
      assert r == host[..i] + BackendPortSegment + host[i + 6..];
      assert r[i..i + 6] == BackendPortSegment;
      r
    else
      r
  }

  /**
   * The WebSocket URL opened by `connectWebSocket`: the secure scheme and the
   * rewritten host exactly on a Codespaces host, the fixed local URL anywhere
   * else.
   */
  function FeedUrl(host: string): (r: string)
    ensures |r| >= 9
    ensures IsCodespaces(host) <==> r[..4] == "wss:"
    ensures IsCodespaces(host) ==>
      && |r| == |host| + 9
      && r[..6] == "wss://" && r[6..|r| - 3] == BackendHost(host) && r[|r| - 3..] == "/ws"
    ensures !IsCodespaces(host) ==> r == LocalFeedUrl
  {
    if IsCodespaces(host) then
      var r := "wss://" + BackendHost(host) + "/ws";
      assert r[6..|r| - 3] == BackendHost(host);
      r
    else
      assert LocalFeedUrl[..4][2] != "wss:"[2];
      LocalFeedUrl
  }

  /**
   * The URL `handleReset` POSTs to: `https` and the rewritten host exactly on
   * a Codespaces host, the fixed local URL anywhere else.
   */
  function ResetUrl(host: string): (r: string)
    ensures |r| >= 14
    ensures IsCodespaces(host) <==> r[..6] == "https:"
    ensures IsCodespaces(host) ==>
      && |r| == |host| + 14
      && r[..8] == "https://" && r[8..|r| - 6] == BackendHost(host) && r[|r| - 6..] == "/reset"
    ensures !IsCodespaces(host) ==> r == LocalResetUrl
  {
    if IsCodespaces(host) then
      var r := "https://" + BackendHost(host) + "/reset";
      assert r[8..|r| - 6] == BackendHost(host);
      r
    else
      assert LocalResetUrl[..6][4] != "https:"[4];
      LocalResetUrl
  }

  /** With no dot in `name`, the first port segment of `name + "-3000." + rest` is the one after `name`. */
  lemma FirstPortSegment(name: string, rest: string)
    requires '.' !in name
    ensures IndexOf(name + FrontendPortSegment + rest, FrontendPortSegment) == Some(|name|)
  {
    var host := name + FrontendPortSegment + rest;
    var n := |name|;
    assert host[n..n + 6] == FrontendPortSegment;
    assert OccursAt(host, FrontendPortSegment, n);
    forall j | 0 <= j < n
      ensures !OccursAt(host, FrontendPortSegment, j)
    {
      if j + 5 < n {
        assert host[j + 5] == name[j + 5];
        assert host[j + 5] != '.';
      } else {
        assert host[j + 5] == FrontendPortSegment[j + 5 - n];
        assert host[j + 5] != '.';
      }
      assert host[j..j + 6][5] != '.';
    }
  }

  /**
   * Codespaces forwarding: a workspace host `<name>-3000.app.github.dev`
   * (forwarded host names carry no dot before the port segment) gets its
   * feed on `wss://<name>-8080.app.github.dev/ws` and its reset endpoint on
   * `https://<name>-8080.app.github.dev/reset`.
   */
  lemma CodespacesForwarding(name: string)
    requires '.' !in name
    ensures FeedUrl(name + FrontendPortSegment + CodespacesDomain)
         == "wss://" + name + BackendPortSegment + CodespacesDomain + "/ws"
    ensures ResetUrl(name + FrontendPortSegment + CodespacesDomain)
         == "https://" + name + BackendPortSegment + CodespacesDomain + "/reset"
  {
    var host := name + FrontendPortSegment + CodespacesDomain;
    var n := |name|;
    assert host[n + 6..] == CodespacesDomain;
    assert OccursAt(host, CodespacesDomain, n + 6);
    FirstPortSegment(name, CodespacesDomain);
    assert host[..n] == name;
    var b := BackendHost(host);
    assert b == name + BackendPortSegment + CodespacesDomain;
    assert IsCodespaces(host);
    assert FeedUrl(host) == "wss://" + b + "/ws";
    assert ResetUrl(host) == "https://" + b + "/reset";
  }

  /** Reads back the reset URL the client would use from a feed URL. */
  function ResetUrlForFeed(feed: string): string
  {
    if |feed| >= 9 && feed[..6] == "wss://" && feed[|feed| - 3..] == "/ws" then
      "https://" + feed[6..|feed| - 3] + "/reset"
    else if feed == LocalFeedUrl then
      LocalResetUrl
    else
      ""
  }

  /**
   * Both endpoints name the same backend: the reset URL is the feed URL with
   * its scheme switched from WebSocket to HTTP(S) and its path from /ws to
   * /reset, whatever the host.
   */
  lemma ResetTargetsFeedBackend(host: string)
    ensures ResetUrl(host) == ResetUrlForFeed(FeedUrl(host))
  {
    if IsCodespaces(host) {
      var b := BackendHost(host);
      var feed := "wss://" + b + "/ws";
      assert feed[..6] == "wss://";
      assert feed[|feed| - 3..] == "/ws";
      assert feed[6..|feed| - 3] == b;
    } else {
      assert LocalFeedUrl[2] != "wss://"[2];
    }
  }
}

=== FILE: series.dfy ===
/**
 * Bounded, order-preserving series.
 *
 * Both ends of the feed keep a series capped at 200 entries: the browser
 * appends and then keeps `slice(-maxDataPoints)`, the Go hub appends and then
 * keeps `history[len(history)-maxHistory:]` when the length went over the cap.
 * Both are "append, then keep the newest `cap` entries", defined once here.
 */
module Series {

  function Min(a: int, b: int): int
  {
    if a < b then a else b
  }

  /** The newest `n` entries of `s`, or all of `s` when it holds no more than `n`. */
  function TakeLast<T>(s: seq<T>, n: nat): (r: seq<T>)
    ensures |r| == Min(|s|, n)
    ensures r == s[|s| - |r|..]
  {
    if |s| > n then s[|s| - n..] else s
  }

  /** Append one entry and evict from the front down to the capacity. */
  function Push<T>(s: seq<T>, x: T, cap: nat): (r: seq<T>)
    ensures |r| == Min(|s| + 1, cap)
    ensures cap > 0 ==> r[|r| - 1] == x
    ensures |s| < cap ==> r == s + [x]
    ensures 0 < cap <= |s| ==> r == s[|s| - cap + 1..] + [x]
  {
    TakeLast(s + [x], cap)
  }

  /** Append the entries of `xs` one at a time, in arrival order. */
  function PushAll<T>(s: seq<T>, xs: seq<T>, cap: nat): seq<T>
    decreases |xs|
  {
    if |xs| == 0 then s else PushAll(Push(s, xs[0], cap), xs[1..], cap)
  }

  /** Truncating before appending more does not change what is finally kept. */
  lemma TakeLastAppend<T>(a: seq<T>, b: seq<T>, n: nat)
    ensures TakeLast(TakeLast(a, n) + b, n) == TakeLast(a + b, n)
  {
    if |a| <= n {
      assert TakeLast(a, n) == a;
    } else if |b| == 0 {
      assert TakeLast(a, n) + b == TakeLast(a, n) && a + b == a;
    } else {
      OverfullThenAppend(a, b, n);
    }
  }

  lemma OverfullThenAppend<T>(a: seq<T>, b: seq<T>, n: nat)
    requires |a| > n && |b| > 0
    ensures TakeLast(TakeLast(a, n) + b, n) == TakeLast(a + b, n)
  {
    var ab := a + b;
    var t := a[|a| - n..];
    assert t + b == ab[|a| - n..];
    assert (t + b)[|b|..] == ab[|a| - n + |b|..];
  }

  /** One append followed by more appends keeps what appending everything at once keeps. */
  lemma PushThenAppend<T>(s: seq<T>, x: T, rest: seq<T>, cap: nat)
    ensures PushAll(s, [x] + rest, cap) == PushAll(Push(s, x, cap), rest, cap)
    ensures TakeLast(Push(s, x, cap) + rest, cap) == TakeLast(s + ([x] + rest), cap)
  {
    TakeLastAppend(s + [x], rest, cap);
    assert s + [x] + rest == s + ([x] + rest);
  }

  /**
   * FIFO retention: after any number of appends to a series that is within
   * its capacity, the series holds exactly the newest `cap` entries of
   * everything it ever held, in arrival order (and so never more than `cap`).
   */
  lemma {:induction false} PushAllKeepsNewest<T>(s: seq<T>, xs: seq<T>, cap: nat)
    requires |s| <= cap
    ensures PushAll(s, xs, cap) == TakeLast(s + xs, cap)
    decreases |xs|
  {
    if |xs| == 0 {
      assert s + xs == s;
    } else {
      var s' := Push(s, xs[0], cap);
      PushAllKeepsNewest(s', xs[1..], cap);
      PushThenAppend(s, xs[0], xs[1..], cap);
      assert [xs[0]] + xs[1..] == xs;
    }
  }

  /** Starting from an empty series, `k` appends leave the newest `min(k, cap)` of them. */
  lemma NewestFromEmpty<T>(xs: seq<T>, cap: nat)
    ensures PushAll([], xs, cap) == TakeLast(xs, cap)
    ensures |PushAll([], xs, cap)| == Min(|xs|, cap)
  {
    PushAllKeepsNewest([], xs, cap);
    assert [] + xs == xs;
  }

  /** One append more than the capacity evicts exactly the first value: the series is the rest, in order. */
  lemma OverflowEvictsFirst<T>(xs: seq<T>, cap: nat)
    requires |xs| == cap + 1
    ensures PushAll([], xs, cap) == xs[1..]
  {
    NewestFromEmpty(xs, cap);
  }
}

=== FILE: session.dfy ===
/**
 * The browser client's session state (the `App` component of App.js) as an
 * immutable record and the events that change it.
 *
 * React state updates are applied one event at a time in delivery order.
 * A `useEffect` run on a changed reconnect trigger is folded into the event
 * that changed the trigger: it closes the old socket and calls
 * `connectWebSocket` for a new one.
 */
module Session {
  import opened Wrappers
  import Series

  /** `maxDataPoints`: capacity of the price and label series. */
  const MaxDataPoints: nat := 200

  /** The four values of the `status` string. */
  datatype Status = Connecting | Connected | ConnectionError | Disconnected

  function StatusText(st: Status): string
  {
    match st
    case Connecting => "Conectando..."
    case Connected => "Conectado"
    case ConnectionError => "Erro na conexão"
    case Disconnected => "Desconectado"
  }

  /** One decoded feed record: `{ price, timestamp }`. */
  datatype Tick = Tick(price: real, timestamp: string)

  /**
   * An inbound WebSocket frame as `JSON.parse` sees it: a price record, the
   * JSON literal `null` (parses, but reading `.price` from it throws), or
   * text that does not parse at all.
   */
  datatype Payload = Record(tick: Tick) | NullRecord | Unparseable

  /** The four socket callbacks. */
  datatype SocketEvent = Opened | Received(payload: Payload) | Failed | Closed

  /** How the reset `fetch` settled: an HTTP status, or a rejected promise. */
  datatype ResetOutcome = Responded(httpStatus: int) | FetchRejected

  /** `response.ok`: a status in 200..299. */
  predicate IsOk(o: ResetOutcome)
  {
    o.Responded? && 200 <= o.httpStatus <= 299
  }

  /**
   * Everything that reaches the component. A socket callback carries the
   * reconnect-trigger value of the effect run that created its socket.
   */
  datatype Event =
    | Socket(generation: nat, event: SocketEvent)
    | ReconnectClicked
    | ResetSettled(outcome: ResetOutcome)

  /** The component's state; `messageCount` is `messageCountRef.current`. */
  datatype Client = Client(
    price: Option<real>,
    timestamp: string,
    status: Status,
    priceHistory: seq<real>,
    timeLabels: seq<string>,
    reconnectTrigger: nat,
    updateCount: nat,
    messageCount: nat)

  /** The two series have the same length and are within capacity. */
  predicate WellFormed(c: Client)
  {
    |c.priceHistory| == |c.timeLabels| <= MaxDataPoints
  }

  /** `connectWebSocket`: status "Conectando..." and the message counter back to 0, nothing else. */
  function Connect(c: Client): (r: Client)
    ensures r.status == Connecting && r.messageCount == 0
    ensures r.(status := c.status, messageCount := c.messageCount) == c
  {
    c.(status := Connecting, messageCount := 0)
  }

  /** The `useState` initial values followed by the mount effect's `connectWebSocket`. */
  function Initial(): (r: Client)
    ensures WellFormed(r)
    ensures r.status == Connecting && r.price.None? && r.priceHistory == []
    ensures r.timestamp == "" && r.updateCount == 0 && r.messageCount == 0 && r.reconnectTrigger == 0
  {
    Connect(Client(None, "", Connecting, [], [], 0, 0, 0))
  }

  /**
   * `ws.onmessage`. An unparseable frame throws in `JSON.parse` before any
   * update; a `null` frame throws right after the counter increment; a record
   * bumps the counter, publishes it as `updateCount`, replaces the latest
   * price and timestamp, and appends to both series with eviction.
   */
  function OnMessage(c: Client, p: Payload): (r: Client)
    ensures p.Unparseable? ==> r == c
    ensures p.NullRecord? ==> r == c.(messageCount := c.messageCount + 1)
    ensures p.Record? ==>
      && r.messageCount == c.messageCount + 1
      && r.updateCount == r.messageCount
      && r.price == Some(p.tick.price)
      && r.timestamp == p.tick.timestamp
      && 0 < |r.priceHistory| <= MaxDataPoints
      && 0 < |r.timeLabels| <= MaxDataPoints
      && r.priceHistory[|r.priceHistory| - 1] == p.tick.price
      && r.timeLabels[|r.timeLabels| - 1] == p.tick.timestamp
    ensures WellFormed(c) ==> WellFormed(r)
    ensures r.status == c.status && r.reconnectTrigger == c.reconnectTrigger
  {
    match p
    case Unparseable => c
    case NullRecord => c.(messageCount := c.messageCount + 1)
    case Record(t) =>
      var n := c.messageCount + 1;
      c.(price := Some(t.price),
         timestamp := t.timestamp,
         updateCount := n,
         messageCount := n,
         priceHistory := Series.Push(c.priceHistory, t.price, MaxDataPoints),
         timeLabels := Series.Push(c.timeLabels, t.timestamp, MaxDataPoints))
  }

  /** `onopen`, `onmessage`, `onerror`, `onclose`. */
  function OnSocket(c: Client, e: SocketEvent): (r: Client)
    ensures e.Opened? ==> r == c.(status := Connected)
    ensures e.Failed? ==> r == c.(status := ConnectionError)
    ensures e.Closed? ==> r == c.(status := Disconnected)
  {
    match e
    case Opened => c.(status := Connected)
    case Received(p) => OnMessage(c, p)
    case Failed => c.(status := ConnectionError)
    case Closed => c.(status := Disconnected)
  }

  /** `handleReconnect`: bump the trigger; the effect then opens a new socket. */
  function HandleReconnect(c: Client): (r: Client)
    ensures r.reconnectTrigger == c.reconnectTrigger + 1
    ensures r.status == Connecting && r.messageCount == 0
    ensures r.priceHistory == c.priceHistory && r.timeLabels == c.timeLabels
    ensures r.updateCount == c.updateCount && r.price == c.price && r.timestamp == c.timestamp
  {
    Connect(c.(reconnectTrigger := c.reconnectTrigger + 1))
  }

  /**
   * The continuation of `handleReset` once its POST settles. Only an ok
   * response clears the series, the latest price and timestamp and both
   * counters, and bumps the trigger (which reconnects); a non-ok response or
   * a rejected fetch leaves every field as it was.
   */
  function OnResetSettled(c: Client, o: ResetOutcome): (r: Client)
    ensures !IsOk(o) ==> r == c
    ensures IsOk(o) ==>
      && r.priceHistory == [] && r.timeLabels == []
      && r.price == None && r.timestamp == ""
      && r.updateCount == 0 && r.messageCount == 0
      && r.reconnectTrigger == c.reconnectTrigger + 1
      && r.status == Connecting
  {
    if IsOk(o) then
      HandleReconnect(c.(priceHistory := [], timeLabels := [], price := None,
                         timestamp := "", updateCount := 0, messageCount := 0))
    else
      c
  }

  /**
   * One event. The socket handlers are attached without any check of which
   * effect run created the socket, so the generation tag is not consulted.
   */
  function Step(c: Client, ev: Event): (r: Client)
    ensures WellFormed(c) ==> WellFormed(r)
  {
    match ev
    case Socket(_, e) => OnSocket(c, e)
    case ReconnectClicked => HandleReconnect(c)
    case ResetSettled(o) => OnResetSettled(c, o)
  }

  function Run(c: Client, evs: seq<Event>): Client
    decreases |evs|
  {
    if |evs| == 0 then c else Run(Step(c, evs[0]), evs[1..])
  }

  /** The two series keep equal lengths within capacity under every event sequence. */
  lemma {:induction false} RunKeepsSeriesAligned(c: Client, evs: seq<Event>)
    requires WellFormed(c)
    ensures WellFormed(Run(c, evs))
    decreases |evs|
  {
    if |evs| > 0 {
      RunKeepsSeriesAligned(Step(c, evs[0]), evs[1..]);
    }
  }

  /** The frames of one socket, delivered in order. */
  function Deliveries(g: nat, ps: seq<Payload>): (evs: seq<Event>)
    ensures |evs| == |ps|
    decreases |ps|
  {
    if |ps| == 0 then [] else [Socket(g, Received(ps[0]))] + Deliveries(g, ps[1..])
  }

  /** The records among the frames, in arrival order. */
  function Ticks(ps: seq<Payload>): seq<Tick>
    decreases |ps|
  {
    if |ps| == 0 then []
    else if ps[0].Record? then [ps[0].tick] + Ticks(ps[1..])
    else Ticks(ps[1..])
  }

  /** Frames that got past `JSON.parse` (records and `null`): each one bumps the counter once. */
  function Parsed(ps: seq<Payload>): nat
    decreases |ps|
  {
    if |ps| == 0 then 0
    else (if ps[0].Unparseable? then 0 else 1) + Parsed(ps[1..])
  }

  function Prices(ts: seq<Tick>): (r: seq<real>)
    ensures |r| == |ts| && forall i :: 0 <= i < |ts| ==> r[i] == ts[i].price
  {
    seq(|ts|, i requires 0 <= i < |ts| => ts[i].price)
  }

  function Labels(ts: seq<Tick>): (r: seq<string>)
    ensures |r| == |ts| && forall i :: 0 <= i < |ts| ==> r[i] == ts[i].timestamp
  {
    seq(|ts|, i requires 0 <= i < |ts| => ts[i].timestamp)
  }

  lemma PricesCons(t: Tick, ts: seq<Tick>)
    ensures Prices([t] + ts) == [t.price] + Prices(ts)
    ensures Labels([t] + ts) == [t.timestamp] + Labels(ts)
  {
  }

  /**
   * The series are index-aligned: for some records `ts`, at most 200 of them,
   * index i of the prices and index i of the labels both come from `ts[i]`.
   */
  ghost predicate Paired(c: Client)
  {
    exists ts: seq<Tick> :: |ts| <= MaxDataPoints && c.priceHistory == Prices(ts) && c.timeLabels == Labels(ts)
  }

  /** Appending a record and then keeping the newest entries commutes with projecting prices or labels. */
  lemma PushProjects(ts: seq<Tick>, t: Tick)
    ensures Prices(Series.Push(ts, t, MaxDataPoints)) == Series.Push(Prices(ts), t.price, MaxDataPoints)
    ensures Labels(Series.Push(ts, t, MaxDataPoints)) == Series.Push(Labels(ts), t.timestamp, MaxDataPoints)
  {
    var all := ts + [t];
    var r := Series.Push(ts, t, MaxDataPoints);
    var k := |all| - |r|;
    assert r == all[k..];
    var ps := Prices(ts) + [t.price];
    var ls := Labels(ts) + [t.timestamp];
    assert Series.Push(Prices(ts), t.price, MaxDataPoints) == ps[k..];
    assert Series.Push(Labels(ts), t.timestamp, MaxDataPoints) == ls[k..];
    forall i | 0 <= i < |r|
      ensures Prices(r)[i] == ps[k..][i] && Labels(r)[i] == ls[k..][i]
    {
      assert r[i] == all[k + i];
    }
  }

  /**
   * Series paired by the records `ts` stay paired after every event: a record's price and label are
   * appended and evicted together, an ok reset clears both, and every other
   * event leaves both alone.
   */
  lemma StepKeepsPaired(c: Client, ev: Event, ts: seq<Tick>)
    requires |ts| <= MaxDataPoints && c.priceHistory == Prices(ts) && c.timeLabels == Labels(ts)
    ensures Paired(Step(c, ev))
  {
    var r := Step(c, ev);
    if ev.Socket? && ev.event.Received? && ev.event.payload.Record? {
      var t := ev.event.payload.tick;
      var ts' := Series.Push(ts, t, MaxDataPoints);
      PushProjects(ts, t);
      assert r.priceHistory == Prices(ts') && r.timeLabels == Labels(ts');
    } else if ev.ResetSettled? && IsOk(ev.outcome) {
      var none: seq<Tick> := [];
      assert r.priceHistory == Prices(none) && r.timeLabels == Labels(none);
    } else {
      assert r.priceHistory == Prices(ts) && r.timeLabels == Labels(ts);
    }
  }

  /** The series stay paired under every event sequence, reconnects and several sockets included. */
  lemma {:induction false} RunKeepsSeriesPaired(c: Client, evs: seq<Event>)
    requires Paired(c)
    ensures Paired(Run(c, evs))
    decreases |evs|
  {
    if |evs| > 0 {
      var ts: seq<Tick> :| |ts| <= MaxDataPoints && c.priceHistory == Prices(ts) && c.timeLabels == Labels(ts);
      StepKeepsPaired(c, evs[0], ts);
      RunKeepsSeriesPaired(Step(c, evs[0]), evs[1..]);
    }
  }

  /** The mounted client is paired (by no records), so every reachable client is. */
  lemma InitialPaired(evs: seq<Event>)
    ensures Paired(Initial())
    ensures Paired(Run(Initial(), evs))
  {
    var none: seq<Tick> := [];
    assert Initial().priceHistory == Prices(none) && Initial().timeLabels == Labels(none);
    RunKeepsSeriesPaired(Initial(), evs);
  }

  lemma RunDeliveriesCons(c: Client, g: nat, ps: seq<Payload>)
    requires |ps| > 0
    ensures Run(c, Deliveries(g, ps)) == Run(OnMessage(c, ps[0]), Deliveries(g, ps[1..]))
  {
    var evs := Deliveries(g, ps);
    assert evs[0] == Socket(g, Received(ps[0]));
    assert evs[1..] == Deliveries(g, ps[1..]);
  }

  /**
   * Frames delivered on one socket leave as the series the newest 200
   * entries of the old series followed by the records' prices (and labels),
   * in arrival order. Frames that are not records leave no trace there.
   */
  lemma {:induction false} DeliveriesAppendTicks(c: Client, g: nat, ps: seq<Payload>)
    requires WellFormed(c)
    ensures Run(c, Deliveries(g, ps)).priceHistory
         == Series.TakeLast(c.priceHistory + Prices(Ticks(ps)), MaxDataPoints)
    ensures Run(c, Deliveries(g, ps)).timeLabels
         == Series.TakeLast(c.timeLabels + Labels(Ticks(ps)), MaxDataPoints)
    decreases |ps|
  {
    if |ps| == 0 {
      assert c.priceHistory + Prices(Ticks(ps)) == c.priceHistory;
      assert c.timeLabels + Labels(Ticks(ps)) == c.timeLabels;
    } else {
      RunDeliveriesCons(c, g, ps);
      var c' := OnMessage(c, ps[0]);
      DeliveriesAppendTicks(c', g, ps[1..]);
      var rest := Ticks(ps[1..]);
      if ps[0].Record? {
        var t := ps[0].tick;
        assert Ticks(ps) == [t] + rest;
        PricesCons(t, rest);
        Series.PushThenAppend(c.priceHistory, t.price, Prices(rest), MaxDataPoints);
        Series.PushThenAppend(c.timeLabels, t.timestamp, Labels(rest), MaxDataPoints);
      } else {
        assert Ticks(ps) == rest;
      }
    }
  }

  /**
   * Each frame that gets past `JSON.parse` bumps the counter exactly once and
   * an unparseable one not at all; messages never touch the status or the
   * reconnect trigger.
   */
  lemma {:induction false} DeliveriesCount(c: Client, g: nat, ps: seq<Payload>)
    ensures Run(c, Deliveries(g, ps)).messageCount == c.messageCount + Parsed(ps)
    ensures Run(c, Deliveries(g, ps)).status == c.status
    ensures Run(c, Deliveries(g, ps)).reconnectTrigger == c.reconnectTrigger
    decreases |ps|
  {
    if |ps| > 0 {
      RunDeliveriesCons(c, g, ps);
      DeliveriesCount(OnMessage(c, ps[0]), g, ps[1..]);
    }
  }

  /**
   * The series of `c` are the newest min(k, 200) of the k ticks `ts`,
   * oldest first, and index i of the prices and of the labels come from the
   * same tick.
   */
  predicate HoldsNewest(c: Client, ts: seq<Tick>)
  {
    && |c.priceHistory| == |c.timeLabels| == Series.Min(|ts|, MaxDataPoints)
    && forall i :: 0 <= i < |c.priceHistory| ==>
         && c.priceHistory[i] == ts[|ts| - |c.priceHistory| + i].price
         && c.timeLabels[i] == ts[|ts| - |c.priceHistory| + i].timestamp
  }

  /**
   * After a successful reset the frames of the next socket rebuild both
   * series from scratch out of the records among them, and the counter
   * restarts from 0 and counts the frames that parsed.
   */
  lemma SeriesAfterReset(c: Client, o: ResetOutcome, g: nat, ps: seq<Payload>)
    requires IsOk(o)
    ensures HoldsNewest(Run(OnResetSettled(c, o), Deliveries(g, ps)), Ticks(ps))
    ensures Run(OnResetSettled(c, o), Deliveries(g, ps)).messageCount == Parsed(ps)
  {
    var c0 := OnResetSettled(c, o);
    var ts := Ticks(ps);
    var r := Run(c0, Deliveries(g, ps));
    DeliveriesAppendTicks(c0, g, ps);
    DeliveriesCount(c0, g, ps);
    assert c0.priceHistory + Prices(ts) == Prices(ts);
    assert c0.timeLabels + Labels(ts) == Labels(ts);
    NewestOfTicks(r, ts);
  }

  lemma NewestOfTicks(r: Client, ts: seq<Tick>)
    requires r.priceHistory == Series.TakeLast(Prices(ts), MaxDataPoints)
    requires r.timeLabels == Series.TakeLast(Labels(ts), MaxDataPoints)
    ensures HoldsNewest(r, ts)
  {
    NewestPrices(r.priceHistory, ts);
    NewestLabels(r.timeLabels, ts);
  }

  lemma NewestPrices(ph: seq<real>, ts: seq<Tick>)
    requires ph == Series.TakeLast(Prices(ts), MaxDataPoints)
    ensures |ph| == Series.Min(|ts|, MaxDataPoints)
    ensures forall i :: 0 <= i < |ph| ==> ph[i] == ts[|ts| - |ph| + i].price
  {
    var k := |ts| - |ph|;
    var all := Prices(ts);
    assert ph == all[k..];
    forall i | 0 <= i < |ph|
      ensures ph[i] == ts[k + i].price
    {
      assert ph[i] == all[k + i];
    }
  }

  lemma NewestLabels(ls: seq<string>, ts: seq<Tick>)
    requires ls == Series.TakeLast(Labels(ts), MaxDataPoints)
    ensures |ls| == Series.Min(|ts|, MaxDataPoints)
    ensures forall i :: 0 <= i < |ls| ==> ls[i] == ts[|ts| - |ls| + i].timestamp
  {
    var k := |ts| - |ls|;
    var all := Labels(ts);
    assert ls == all[k..];
    forall i | 0 <= i < |ls|
      ensures ls[i] == ts[k + i].timestamp
    {
      assert ls[i] == all[k + i];
    }
  }

  /** The transition does not look at which socket an event came from. */
  lemma StepIgnoresGeneration(c: Client, g1: nat, g2: nat, e: SocketEvent)
    ensures Step(c, Socket(g1, e)) == Step(c, Socket(g2, e))
  {
  }

  /**
   * Intended behaviour: a callback from a socket created by an earlier
   * effect run (a generation other than the current trigger) is dropped.
   */
  function GuardedStep(c: Client, ev: Event): (r: Client)
    ensures ev.Socket? && ev.generation != c.reconnectTrigger ==> r == c
    ensures WellFormed(c) ==> WellFormed(r)
  {
    if ev.Socket? && ev.generation != c.reconnectTrigger then c else Step(c, ev)
  }

  function GuardedRun(c: Client, evs: seq<Event>): Client
    decreases |evs|
  {
    if |evs| == 0 then c else GuardedRun(GuardedStep(c, evs[0]), evs[1..])
  }

  /** All events are callbacks of sockets from effect runs before the current one. */
  predicate AllStale(c: Client, evs: seq<Event>)
  {
    forall i :: 0 <= i < |evs| ==> evs[i].Socket? && evs[i].generation < c.reconnectTrigger
  }

  /**
   * With the guard, any burst of late callbacks from disposed sockets
   * leaves the session exactly as it was.
   */
  lemma {:induction false} GuardedRunIgnoresStale(c: Client, evs: seq<Event>)
    requires AllStale(c, evs)
    ensures GuardedRun(c, evs) == c
    decreases |evs|
  {
    if |evs| > 0 {
      assert evs[0].Socket? && evs[0].generation < c.reconnectTrigger;
      assert GuardedStep(c, evs[0]) == c;
      assert AllStale(c, evs[1..]) by {
        forall i | 0 <= i < |evs[1..]|
          ensures evs[1..][i].Socket? && evs[1..][i].generation < c.reconnectTrigger
        {
          assert evs[1..][i] == evs[i + 1];
        }
      }
      GuardedRunIgnoresStale(c, evs[1..]);
    }
  }

  /** On callbacks of the current socket and on user actions the guard changes nothing. */
  lemma GuardedAgreesOnCurrent(c: Client, ev: Event)
    requires !ev.Socket? || ev.generation == c.reconnectTrigger
    ensures GuardedStep(c, ev) == Step(c, ev)
  {
  }

  /**
   * As written, an ok reset (which bumps the trigger while the old socket is
   * still open), followed by the new socket opening and then the old
   * socket's close callback (fired asynchronously by the cleanup's
   * `ws.close()`), leaves the status "Desconectado" although the new socket
   * is open; with the guard the status stays "Conectado".
   */
  lemma StaleCloseAfterReset(c: Client)
    ensures var c1 := Step(c, ResetSettled(Responded(200)));
      var c2 := Step(c1, Socket(c1.reconnectTrigger, Opened));
      && c2.status == Connected
      && Step(c2, Socket(c.reconnectTrigger, Closed)).status == Disconnected
      && GuardedStep(c2, Socket(c.reconnectTrigger, Closed)).status == Connected
  {
  }

  /**
   * Once a stale close has shown "Desconectado" over an open socket, a
   * reconnect click disposes that still-open socket, and its own late close
   * overwrites the next session's "Conectado" in the same way.
   */
  lemma StaleCloseRepeatsAfterClick(c: Client)
    ensures var c1 := Step(c, ResetSettled(Responded(200)));
      var c2 := Step(c1, Socket(c1.reconnectTrigger, Opened));
      var c3 := Step(c2, Socket(c.reconnectTrigger, Closed));
      var c4 := Step(c3, ReconnectClicked);
      var c5 := Step(c4, Socket(c4.reconnectTrigger, Opened));
      && c3.status == Disconnected
      && c5.status == Connected
      && Step(c5, Socket(c3.reconnectTrigger, Closed)).status == Disconnected
  {
  }
}

=== FILE: stats_panel.dfy ===
/**
 * Live-statistics panel (StatsSection.js): the change since the oldest
 * retained point, its sign, the price card's placeholder text and which
 * control buttons are offered. Number formatting (`Intl.NumberFormat`,
 * `toFixed`, `toLocaleString`) is not modelled: amounts stay exact reals.
 */
module StatsPanel {
  import opened Wrappers
  import Session

  /**
   * `change / firstPrice * 100` as a JavaScript number: finite, or
   * Infinity/NaN when the first price is 0.
   */
  datatype Percent = Finite(value: real) | NotFinite

  datatype Change = Change(value: real, percentage: Percent)

  /**
   * `calculateChange`: fewer than two points give no change; otherwise the
   * newest minus the oldest retained price, and that difference as a
   * percentage of the oldest.
   */
  function CalculateChange(h: seq<real>): (c: Change)
    ensures |h| < 2 ==> c == Change(0.0, Finite(0.0))
    ensures |h| >= 2 ==> c.value == h[|h| - 1] - h[0]
    ensures |h| >= 2 && h[0] != 0.0 ==> c.percentage.Finite? && c.percentage.value * h[0] == c.value * 100.0
    ensures |h| >= 2 && h[0] == 0.0 ==> c.percentage == NotFinite
  {
    if |h| < 2 then Change(0.0, Finite(0.0))
    else
      var first := h[0];
      var change := h[|h| - 1] - first;
      Change(change, if first == 0.0 then NotFinite else Finite(change / first * 100.0))
  }

  /** `isPositive`: a zero change counts as positive. */
  predicate IsPositive(c: Change): (b: bool)
    ensures c.value == 0.0 ==> b
    ensures c.value > 0.0 ==> b
    ensures c.value < 0.0 ==> !b
  {
    c.value >= 0.0
  }

  /** The change is shown as positive exactly when the newest retained price is not below the oldest. */
  lemma PositiveIffNotFalling(h: seq<real>)
    ensures IsPositive(CalculateChange(h)) <==> |h| < 2 || h[0] <= h[|h| - 1]
  {
  }

  /** Interior points do not matter: only the oldest and newest retained prices do. */
  lemma ChangeDependsOnlyOnEnds(a: seq<real>, b: seq<real>)
    requires |a| >= 2 && |b| >= 2
    requires a[0] == b[0] && a[|a| - 1] == b[|b| - 1]
    ensures CalculateChange(a) == CalculateChange(b)
  {
  }

  /** Examples: no points, one point, and a 10% rise from 100 to 110. */
  lemma ChangeExamples()
    ensures CalculateChange([]) == Change(0.0, Finite(0.0))
    ensures CalculateChange([7.0]) == Change(0.0, Finite(0.0))
    ensures CalculateChange([100.0, 110.0]) == Change(10.0, Finite(10.0))
  {
  }

  const ZeroPriceText := "US$ 0.00"

  /** What the "Current Price" card shows: a fixed text, or a currency rendering of an amount. */
  datatype PriceText = Literal(text: string) | Currency(amount: real)

  /**
   * `formatPrice`: a falsy price (`null`, or 0) shows the fixed text
   * "US$ 0.00"; any other price is handed to the currency formatter.
   */
  function FormatPrice(p: Option<real>): (r: PriceText)
    ensures r.Literal? <==> p == None || p == Some(0.0)
    ensures r.Literal? ==> r.text == ZeroPriceText
    ensures r.Currency? ==> p == Some(r.amount) && r.amount != 0.0
  {
    match p
    case None => Literal(ZeroPriceText)
    case Some(v) => if v == 0.0 then Literal(ZeroPriceText) else Currency(v)
  }

  datatype Button = ReconnectButton | ResetButton

  /** The reconnect button's condition, on the status string as the panel receives it. */
  predicate ReconnectVisible(status: string)
  {
    status == "Desconectado" || status == "Erro na conexão"
  }

  /** The buttons in the panel header, left to right. */
  function Controls(status: string): (r: seq<Button>)
    ensures ResetButton in r
    ensures ReconnectButton in r <==> ReconnectVisible(status)
  {
    if ReconnectVisible(status) then [ReconnectButton, ResetButton] else [ResetButton]
  }

  /**
   * Over the four statuses the client can be in, reconnect is offered
   * exactly after an error or a close, never while connecting or connected.
   */
  lemma ReconnectOfferedOnlyWhenDown(st: Session.Status)
    ensures ReconnectButton in Controls(Session.StatusText(st))
        <==> st == Session.Disconnected || st == Session.ConnectionError
  {
    match st
    case Connecting =>
      assert Session.StatusText(st)[0] != "Desconectado"[0];
      assert Session.StatusText(st)[0] != "Erro na conexão"[0];
    case Connected =>
      assert Session.StatusText(st)[0] != "Desconectado"[0];
      assert Session.StatusText(st)[0] != "Erro na conexão"[0];
    case ConnectionError =>
    case Disconnected =>
  }

  /**
   * What the panel shows after socket callbacks: an error or a close brings
   * the reconnect button up, opening or a click on reconnect takes it down.
   */
  lemma ReconnectAfterEvents(c: Session.Client, g: nat)
    ensures ReconnectButton in Controls(Session.StatusText(Session.Step(c, Session.Socket(g, Session.Failed)).status))
    ensures ReconnectButton in Controls(Session.StatusText(Session.Step(c, Session.Socket(g, Session.Closed)).status))
    ensures ReconnectButton !in Controls(Session.StatusText(Session.Step(c, Session.Socket(g, Session.Opened)).status))
    ensures ReconnectButton !in Controls(Session.StatusText(Session.Step(c, Session.ReconnectClicked).status))
  {
    ReconnectOfferedOnlyWhenDown(Session.ConnectionError);
    ReconnectOfferedOnlyWhenDown(Session.Disconnected);
    ReconnectOfferedOnlyWhenDown(Session.Connected);
    ReconnectOfferedOnlyWhenDown(Session.Connecting);
  }

  /**
   * Before the first record and right after a successful reset the price
   * card shows "US$ 0.00"; after a record with a non-zero price it shows
   * that price.
   */
  lemma PriceCardAcrossSession(c: Session.Client, o: Session.ResetOutcome, g: nat, t: Session.Tick)
    ensures FormatPrice(Session.Initial().price) == Literal(ZeroPriceText)
    ensures Session.IsOk(o) ==> FormatPrice(Session.OnResetSettled(c, o).price) == Literal(ZeroPriceText)
    ensures t.price != 0.0 ==>
      FormatPrice(Session.Step(c, Session.Socket(g, Session.Received(Session.Record(t)))).price) == Currency(t.price)
  {
  }
}

=== FILE: wrappers.dfy ===
/** Small value wrappers shared by the other modules. */
module Wrappers {

  /** A value that may be absent: JavaScript's `null` price, or a search that found nothing. */
  datatype Option<+T> = None | Some(value: T)
}
